=== FILE: README.md ===
# dirtool: date-fix and delete over an abstract filesystem

`dirtool.py` has two sub-commands.  `datefix` sets the modification time
of each directory it is given to that of the oldest regular file directly
inside it, keeping the directory's access time.  `delete` deletes each
regular file it is given and then writes the parent directory's access and
modification times back, so the deletion leaves no trace in them.  Both
walk their arguments in ascending path order, skip arguments of the wrong
kind, honour a dry-run switch, and count what they changed.

This project models that core as pure transformers over an immutable
filesystem and proves what they do:

- `paths.dfy` (module `Paths`): paths as strings, `os.path.dirname` and
  `os.path.join` written out for POSIX paths.
- `ordering.dfy` (module `Ordering`): Python's `<=` on strings and the
  `sorted` call both handlers make.
- `filesystem.dfy` (module `FileSystem`): the filesystem as a
  `map<Path, Entry>`, where an entry has a kind (regular file, directory,
  anything else), an atime and an mtime.  The host calls `os.path.isfile`,
  `os.path.isdir`, `os.utime` and `os.unlink` are reads and updates of that
  map.  OS errors are values of `Result`/`Option`.
- `datefix.dfy` (module `DateFix`): `fix_directory_mtime` as
  `Fix(fs, d, dryRun)`, returning whether a change was reported and the
  filesystem afterwards.
- `delete.dfy` (module `Delete`): `delete_file` as
  `DeleteFile(fs, f, dryRun, now)`.  `now` is the host clock at the unlink.
  The unlink stamps the parent directory's mtime with it, as a real kernel
  does, so the restore step has something to undo.
- `handlers.dfy` (module `Handlers`): `datefix_handler` and
  `delete_handler` as methods with loops.  Each returns the count, the
  final filesystem and the log of report lines, one path per line.

`dirtool.py` catches no exception.  An error raised for one path (for
example `delete_file` on a file whose parent does not exist) ends the
whole run, and the model does the same: `DeleteHandler` stops and returns
the error, and no later argument is processed.

Two behaviours worth knowing follow from the code as written:

- A dry run of `datefix` reports a stale directory once per occurrence
  among the arguments.  A real run reports it once, because the second
  occurrence finds it already fixed.  The same holds for `delete` and
  repeated file arguments.
- `delete` on a bare file name (`notes.txt`, no directory part) takes
  `os.path.dirname` of it, which is the empty string.  Reading the times
  of `''` raises, so the file is neither reported nor deleted
  (`Delete.BareNameRaises`).

## Model

| member | source | states |
|---|---|---|
| Paths.JoinThenDirname | dirtool.py:11 | every path the listing builds with `os.path.join(d, name)`, for a non-empty `d` without trailing separator and a plain entry name, has `d` as its dirname |
| Paths.DirnameThenJoin | dirtool.py:11 | conversely, a canonically spelled path with a directory part is `os.path.join` of its dirname and its basename, and the basename is a plain entry name |
| Paths.BareNameDirname | dirtool.py:42 | a path without separator has the empty string as its dirname |
| Ordering.Sort | dirtool.py:59 | `sorted` returns its argument's elements, with multiplicity, in non-descending order |
| Ordering.SortIgnoresInputOrder | dirtool.py:76 | two argument lists with the same elements are processed in the same order, whatever order the caller gave |
| FileSystem.SetTimes | dirtool.py:35 | `os.utime` raises exactly when the path is missing, and otherwise sets both times of that entry and changes no entry's kind or any other entry |
| FileSystem.Unlink | dirtool.py:49 | `os.unlink` raises on a missing path or a directory, and otherwise removes the entry and stamps only its parent's mtime with the clock |
| DateFix.FileChildrenAreListed | dirtool.py:11 | when the regular files are canonically spelled, the regular files whose dirname is `d` are exactly the regular files `os.path.join(d, name)` for plain names `name`, which is the list the tool builds |
| DateFix.FirstIsSortedHead | dirtool.py:17-22 | any list holding exactly the listing's `(mtime, path)` pairs in ascending tuple order starts with the pair `First` picks, so `files[0]` is that pair |
| DateFix.OldestMTime | dirtool.py:17-22 | `files[0][0]` is the mtime of some regular file of the directory and no regular file of it is older |
| DateFix.OldestTieIrrelevant | dirtool.py:17-22 | any one of several equally old files supplies the same new mtime |
| DateFix.Fix | dirtool.py:9-37 | a missing path or a non-directory raises; for a directory the result is true exactly when it has a regular file and the oldest one's mtime differs from its own; a dry run, or a false result, leaves the filesystem as it was |
| DateFix.FixWithoutFilesIsNoOp | dirtool.py:11-14 | a directory without regular files gives false and no change |
| DateFix.FixUpToDateIsNoOp | dirtool.py:20-25 | a directory whose mtime already equals its oldest file's gives false and no change |
| DateFix.FixSetsOldest | dirtool.py:19-35 | on a directory whose oldest regular file's mtime differs from its own a real fix returns true, and afterwards the directory's mtime is the least mtime among its regular files and differs from the old one, its atime and kind are as before, the set of paths is the same and every other entry is untouched |
| DateFix.FixDryRunAgrees | dirtool.py:24-37 | a dry run raises when a real run would, otherwise returns the same boolean, and never changes the filesystem |
| DateFix.FixKeepsFiles | dirtool.py:34-35 | a fix changes no entry's kind and no regular file's mtime |
| DateFix.SameFilesSameTarget | dirtool.py:11-22 | filesystems that agree on kinds and on regular files' mtimes give a directory the same files and the same new mtime |
| DateFix.FixIdempotent | dirtool.py:9-37 | fixing again right after a real fix returns false and changes nothing |
| Delete.DeleteFile | dirtool.py:40-50 | the report is printed exactly when the parent exists; a missing parent raises before anything happens; a dry run changes nothing; a real run raises on a missing file or a directory; on a regular file the only possible error is the missing parent; no entry appears or changes kind, and only the named file can disappear |
| Delete.DeleteRestoresParent | dirtool.py:41-50 | a real call that completes removed an existing file, left the parent's atime and mtime as they were before the call, and changed nothing else |
| Delete.DeleteSucceeds | dirtool.py:40-50 | on a regular file whose parent is a directory the call completes and reports, and leaves the filesystem unchanged in a dry run or without the file otherwise |
| Delete.RestoreMustFollowUnlink | dirtool.py:48-50 | writing the saved times back before the unlink instead of after would leave the parent stamped with the clock |
| Delete.BareNameRaises | dirtool.py:42-44 | a bare file name raises on the empty dirname before printing or deleting anything |
| Handlers.LogsKeptAll | dirtool.py:59-62 | a log built over the sorted arguments that keeps the accepted ones, each once, lists every accepted argument exactly once, in ascending order |
| Handlers.DatefixInvStep | dirtool.py:59-62 | one loop step keeps the run's invariant: directories only are fixed, the count follows the log, the log stays sorted and a real run has re-dated exactly the logged directories |
| Handlers.DatefixInvDone | dirtool.py:57-62 | a finished run's invariant gives the handler's postcondition |
| Handlers.DatefixLoop | dirtool.py:57-62 | after the loop over the sorted arguments the run's invariant holds for all of them |
| Handlers.DatefixHandler | dirtool.py:53-62 | the count equals the number of reports, reports come in ascending order; a dry run changes nothing and reports the stale directories in sorted argument order, repetitions included; a real run reports each stale directory among the arguments once, counts exactly those, and gives each of them its oldest file's mtime while changing nothing else |
| Handlers.DeleteInvStep | dirtool.py:76-79 | one loop step keeps the run's invariant: only regular-file arguments are deleted; a raising call stops the run without counting, and in a dry run or on a well-formed filesystem it leaves the log and the filesystem as they were, with the failing file's missing parent recorded; on a well-formed filesystem a real run's filesystem is the initial one minus the logged files |
| Handlers.DeleteInvDone | dirtool.py:74-79 | a run stopped at the end or at an error gives the handler's error, kind, dry-run, completion and well-formed real-run clauses |
| Handlers.DeleteRaisedDone | dirtool.py:76-79 | in a dry run or a real run on a well-formed filesystem, a run that raised stopped at a sorted argument that is a regular file with a missing parent; every regular file before it had its parent, and the log holds exactly the regular files before it (with repetitions in a dry run) |
| Handlers.DeleteRealDone | dirtool.py:74-79 | a completed real run on a well-formed filesystem logged and counted each regular-file argument exactly once, in ascending order |
| Handlers.DeleteLoop | dirtool.py:74-79 | the loop over the sorted arguments ends at the end of the list, or at the first error with `i` at the argument that raised, with the run's invariant holding |
| Handlers.DeleteHandler | dirtool.py:70-79 | an error can only be a missing parent of a regular-file argument; no entry appears or changes kind; a dry run changes nothing and reports every regular-file argument in sorted order, repetitions included; with a dry run or a well-formed filesystem the run completes exactly when every regular-file argument has its parent; a run that raises, in a dry run or on a well-formed filesystem, raised at the first sorted regular-file argument whose parent is missing, and reported (and in a real run deleted) exactly the regular files sorted before it; a real run on a well-formed filesystem removes exactly the reported files, and when it completes those are the regular-file arguments, each counted once |

## Left out

- `main`, the argument parser, the banners and the summary lines (dirtool.py:54-55, 64-67, 71-72, 81-84, 87-123): command-line plumbing with no state change.
- The report line's wording and its `datetime.fromtimestamp(...).date()` formatting (dirtool.py:27-32): the log records only the affected path.
- Floating-point timestamps: times are integers, and time zones are not modelled.  dirtool.py compares and writes back floats, so the exact restore of the parent's times (dirtool.py:50, `Delete.DeleteRestoresParent`) and the no-op on a second fix (dirtool.py:24, `DateFix.FixIdempotent`) are proved for integer times only; on a host that rounds the written float they can differ.
- `PermissionError`: the model has no permissions, so no call fails for lack of them.
- Symbolic links: `Kind` tells regular files, directories and anything else apart, after whatever link following the host does.
- FileSystem.Unlink: a path below a non-directory (`x/y` where `x` is a regular file) raises `NotADirectoryError` on the host; the model reports `NotFound` for it, since it does not look at ancestors.  Neither handler reaches that case, because `os.path.isdir` and `os.path.isfile` guard every call they make.
- FileSystem.SetTimes: likewise reports `NotFound` where `os.utime` raises `NotADirectoryError` for a path below a non-directory.
- DateFix.Fix: likewise reports `NotFound` where `os.listdir` raises `NotADirectoryError` for a path below a non-directory.
- Delete.DeleteFile: likewise reports `NotFound` where `os.stat` of the parent or `os.unlink` raises `NotADirectoryError` for a path below a non-directory.
- File names that are not valid UTF-8: Python holds their bytes as lone surrogates, which a Dafny `string` cannot hold, so such paths are not representable.  All other names are ordered by code point, which is Python's order on `str`.
- Concurrent changes to the filesystem during a run: the map changes only through the modelled calls.
- Path aliasing: each entry has one spelling, so `a`, `./a` and `a/` are different keys.  As a consequence an argument spelled `a/` (what a shell produces for `datefix */`) names no entry in the model and is skipped, while dirtool.py fixes the directory `a`; and since `Dirname("a/")` is `a`, a key spelled `a/` would count as a child of `a`.  `DateFix.FileChildrenAreListed` relates children to `os.path.join` only for canonically spelled regular files.
- ctime and the atime updates reads may cause on the host: only atime and mtime as the tool reads and writes them are modelled.
- Handlers.DeleteHandler: the exact filesystem after a real run, which files a raising run reported and deleted, and that a run completes exactly when every regular-file argument has its parent, are stated only for dry runs and for well-formed filesystems, where every entry whose parent is present has a directory as parent.  Otherwise, for instance with a regular file named `/` (its own dirname), the restore can fail after the unlink, and only the weaker guarantees (no entry appears or changes kind, the error is a missing parent) are stated.
- Handlers.DeleteHandler: a single clock value `now` stands for the time of every unlink in a run; since each parent's times are written back, its value never shows in a completed run.

=== FILE: datefix.dfy ===
/** `fix_directory_mtime`: set a directory's mtime to that of the oldest
    regular file directly inside it, keeping its atime. */
module DateFix {
  import opened Paths
  import opened Ordering
  import opened FileSystem

  /** The regular files `os.listdir(d)` names, joined onto `d` and kept by
      `os.path.isfile`: the entries whose parent is `d`. */
  function FileChildren(fs: FileSystem, d: Path): (files: set<Path>)
    ensures forall p :: p in files <==> IsFile(fs, p) && Dirname(p) == d
  {
    set p | p in fs && fs[p].kind == RegularFile && Dirname(p) == d
  }

  /** On a filesystem whose entries are named canonically, the directory
      children are exactly what the tool builds: the regular files
      `os.path.join(d, name)` for the names `name` in `d`. */
  lemma FileChildrenAreListed(fs: FileSystem, d: Path)
    requires |d| > 0 && (d[|d| - 1] != Sep || AllSeps(d))
    requires forall p :: IsFile(fs, p) ==> Canonical(p)
    ensures forall p :: p in FileChildren(fs, d) <==>
              IsFile(fs, p) && exists name :: IsName(name) && Join(d, name) == p
  {
    forall p
      ensures p in FileChildren(fs, d) <==>
                IsFile(fs, p) && exists name :: IsName(name) && Join(d, name) == p
    {
      if p in FileChildren(fs, d) {
        DirnameThenJoin(p);
      }
      if IsFile(fs, p) && exists name :: IsName(name) && Join(d, name) == p {
        var name :| IsName(name) && Join(d, name) == p;
        JoinThenDirname(d, name);
      }
    }
  }

  /** The `(mtime, path)` pairs the tool sorts. */
  function Listing(fs: FileSystem, d: Path): (es: set<(int, Path)>)
    ensures forall e :: e in es <==> e.1 in FileChildren(fs, d) && e.0 == fs[e.1].mtime
  {
    set p | p in FileChildren(fs, d) :: (fs[p].mtime, p)
  }

  /** Python's ordering of `(mtime, path)` tuples. */
  predicate EntryBelow(a: (int, Path), b: (int, Path))
  {
    a.0 < b.0 || (a.0 == b.0 && Below(a.1, b.1))
  }

  lemma EntryBelowTotalOrder()
    ensures forall a, b :: EntryBelow(a, b) || EntryBelow(b, a)
    ensures forall a, b :: EntryBelow(a, b) && EntryBelow(b, a) ==> a == b
    ensures forall a, b, c :: EntryBelow(a, b) && EntryBelow(b, c) ==> EntryBelow(a, c)
  {
    forall a: (int, Path), b: (int, Path)
      ensures EntryBelow(a, b) || EntryBelow(b, a)
    {
      BelowTotal(a.1, b.1);
    }
    forall a: (int, Path), b: (int, Path) | EntryBelow(a, b) && EntryBelow(b, a)
      ensures a == b
    {
      BelowAntisymmetric(a.1, b.1);
    }
    forall a: (int, Path), b: (int, Path), c: (int, Path) | EntryBelow(a, b) && EntryBelow(b, c)
      ensures EntryBelow(a, c)
    {
      if a.0 == b.0 == c.0 {
        BelowTransitive(a.1, b.1, c.1);
      }
    }
  }

  /** A finite non-empty set of pairs has a least element. */
  lemma {:induction false} LeastExists(es: set<(int, Path)>)
    requires es != {}
    ensures exists e :: e in es && forall x :: x in es ==> EntryBelow(e, x)
    decreases |es|
  {
    var y :| y in es;
    var rest := es - {y};
    if rest == {} {
      assert es == {y};
      BelowReflexive(y.1);
      assert forall x :: x in es ==> EntryBelow(y, x);
    } else {
      LeastExists(rest);
      var m :| m in rest && forall x :: x in rest ==> EntryBelow(m, x);
      EntryBelowTotalOrder();
      if EntryBelow(m, y) {
        assert forall x :: x in es ==> EntryBelow(m, x);
      } else {
        assert forall x :: x in es ==> EntryBelow(y, x) by {
          forall x | x in es
            ensures EntryBelow(y, x)
          {
            if x == y {
              BelowReflexive(y.1);
            }
          }
        }
      }
    }
  }

  /** `sorted(...)[0]`: the least pair of a non-empty listing. */
  function First(es: set<(int, Path)>): (e: (int, Path))
    requires es != {}
    ensures e in es
    ensures forall x :: x in es ==> EntryBelow(e, x)
  {
    LeastExists(es);
    EntryBelowTotalOrder();
    var e :| e in es && forall x :: x in es ==> EntryBelow(e, x);
    e
  }

  /** `sorted(...)[0]`: every listing of the pairs sorted in tuple order
      starts with `First`. */
  lemma FirstIsSortedHead(es: set<(int, Path)>, s: seq<(int, Path)>)
    requires es != {}
    requires forall x :: x in s <==> x in es
    requires forall i, j :: 0 <= i < j < |s| ==> EntryBelow(s[i], s[j])
    ensures |s| > 0 && s[0] == First(es)
  {
    var e := First(es);
    var k :| 0 <= k < |s| && s[k] == e;
    if k > 0 {
      assert EntryBelow(s[0], s[k]);
    } else {
      BelowReflexive(e.1);
    }
    assert EntryBelow(e, s[0]);
    EntryBelowTotalOrder();
  }

  lemma ListingNonEmpty(fs: FileSystem, d: Path)
    requires FileChildren(fs, d) != {}
    ensures Listing(fs, d) != {}
  {
  }

  /** `files[0][0]`: the mtime of the first pair in `(mtime, path)` order,
      which is the least mtime among the directory's regular files. */
  function OldestMTime(fs: FileSystem, d: Path): (m: int)
    requires FileChildren(fs, d) != {}
    ensures exists p :: p in FileChildren(fs, d) && fs[p].mtime == m
    ensures forall p :: p in FileChildren(fs, d) ==> m <= fs[p].mtime
  {
    ListingNonEmpty(fs, d);
    var e := First(Listing(fs, d));
    assert forall p :: p in FileChildren(fs, d) ==> EntryBelow(e, (fs[p].mtime, p));
    e.0
  }

  /** Whichever of several equally old files the sort puts first, the
      timestamp taken is the same: any oldest file supplies it. */
  lemma OldestTieIrrelevant(fs: FileSystem, d: Path, p: Path)
    requires p in FileChildren(fs, d)
    requires forall q :: q in FileChildren(fs, d) ==> fs[p].mtime <= fs[q].mtime
    ensures OldestMTime(fs, d) == fs[p].mtime
  {
  }

  /** The directory is one whose fix returns true. */
  predicate NeedsFix(fs: FileSystem, d: Path)
  {
    IsDir(fs, d) && FileChildren(fs, d) != {} && OldestMTime(fs, d) != fs[d].mtime
  }

  /** Whether a change was reported, and the filesystem afterwards. */
  datatype Fixed = Fixed(changed: bool, fs: FileSystem)

  /** `fix_directory_mtime(d, dryRun)`.  `os.listdir` on a missing path or
      on a non-directory raises, and so does this. */
  function Fix(fs: FileSystem, d: Path, dryRun: bool): (r: Result<Fixed>)
    ensures d !in fs ==> r == Err(NotFound(d))
    ensures d in fs && fs[d].kind != Directory ==> r == Err(NotADirectory(d))
    ensures IsDir(fs, d) ==> r.Ok? && (r.value.changed <==> NeedsFix(fs, d))
    ensures r.Ok? && (dryRun || !r.value.changed) ==> r.value.fs == fs
  {
    if d !in fs then Err(NotFound(d))
    else if fs[d].kind != Directory then Err(NotADirectory(d))
    else if FileChildren(fs, d) == {} then Ok(Fixed(false, fs))
    else
      var atime := fs[d].atime;
      var mtimeOld := fs[d].mtime;
      var mtimeNew := OldestMTime(fs, d);
      if mtimeNew == mtimeOld then Ok(Fixed(false, fs))
      else if dryRun then Ok(Fixed(true, fs))
      else Ok(Fixed(true, SetTimes(fs, d, atime, mtimeNew).value))
  }

  /** A directory with no regular file in it is left alone. */
  lemma FixWithoutFilesIsNoOp(fs: FileSystem, d: Path, dryRun: bool)
    requires IsDir(fs, d) && FileChildren(fs, d) == {}
    ensures Fix(fs, d, dryRun) == Ok(Fixed(false, fs))
  {
  }

  /** A directory already dated like its oldest file is left alone. */
  lemma FixUpToDateIsNoOp(fs: FileSystem, d: Path, dryRun: bool)
    requires IsDir(fs, d) && FileChildren(fs, d) != {}
    requires OldestMTime(fs, d) == fs[d].mtime
    ensures Fix(fs, d, dryRun) == Ok(Fixed(false, fs))
  {
  }

  /** A real fix gives the directory the least mtime among its regular
      files, keeps its atime and kind, and changes no other entry. */
  lemma FixSetsOldest(fs: FileSystem, d: Path)
    requires NeedsFix(fs, d)
    ensures Fix(fs, d, false).Ok? && Fix(fs, d, false).value.changed
    ensures var fs' := Fix(fs, d, false).value.fs;
      && fs'.Keys == fs.Keys
      && (forall p :: p in FileChildren(fs, d) ==> fs'[d].mtime <= fs[p].mtime)
      && (exists p :: p in FileChildren(fs, d) && fs'[d].mtime == fs[p].mtime)
      && fs'[d].mtime == OldestMTime(fs, d)
      && fs'[d].mtime != fs[d].mtime
      && fs'[d].atime == fs[d].atime
      && fs'[d].kind == Directory
      && (forall q :: q in fs && q != d ==> fs'[q] == fs[q])
  {
  }

  /** A dry run reports exactly what a real run would, and writes nothing. */
  lemma FixDryRunAgrees(fs: FileSystem, d: Path)
    ensures Fix(fs, d, true).Ok? == Fix(fs, d, false).Ok?
    ensures Fix(fs, d, true).Ok? ==>
              && Fix(fs, d, true).value.changed == Fix(fs, d, false).value.changed
              && Fix(fs, d, true).value.fs == fs
  {
  }

  /** Two filesystems that agree on every entry's kind and on every
      regular file's mtime give a directory the same fix target. */
  predicate SameFiles(a: FileSystem, b: FileSystem)
  {
    && a.Keys == b.Keys
    && (forall p :: p in a ==> a[p].kind == b[p].kind)
    && (forall p :: p in a && a[p].kind == RegularFile ==> a[p].mtime == b[p].mtime)
  }

  lemma SameFilesSameTarget(a: FileSystem, b: FileSystem, d: Path)
    requires SameFiles(a, b)
    ensures FileChildren(a, d) == FileChildren(b, d)
    ensures FileChildren(a, d) != {} ==> OldestMTime(a, d) == OldestMTime(b, d)
  {
  }

  /** Fixing one directory never touches a regular file, so it leaves
      every other directory's fix target as it was. */
  lemma FixKeepsFiles(fs: FileSystem, d: Path, dryRun: bool)
    requires Fix(fs, d, dryRun).Ok?
    ensures SameFiles(fs, Fix(fs, d, dryRun).value.fs)
  {
  }

  /** Fixing again right after a real fix reports nothing: the operation
      is idempotent. */
  lemma FixIdempotent(fs: FileSystem, d: Path)
    requires Fix(fs, d, false).Ok?
    ensures var fs' := Fix(fs, d, false).value.fs;
      Fix(fs', d, false) == Ok(Fixed(false, fs'))
  {
  }
}

=== FILE: delete.dfy ===
/** `delete_file`: unlink a file and put its parent directory's timestamps
    back as they were, so the deletion does not show in them. */
module Delete {
  import opened Paths
  import opened FileSystem

  /** Whether the "Deleted" line was printed, the filesystem afterwards,
      and the error that ended the call, if any. */
  datatype Deletion = Deletion(reported: bool, fs: FileSystem, error: Option<Error>)

  /** `delete_file(f, dryRun)`; `now` is the host clock at the unlink.
      The parent's times are read first (raising if it is missing), then
      the line is printed, then the file is unlinked and the saved times
      are written back. */
  function DeleteFile(fs: FileSystem, f: Path, dryRun: bool, now: int): (r: Deletion)
    ensures r.reported <==> Dirname(f) in fs
    ensures Dirname(f) !in fs ==> r == Deletion(false, fs, Some(NotFound(Dirname(f))))
    ensures dryRun ==> r.fs == fs
    ensures !dryRun && Dirname(f) in fs && f !in fs ==> r == Deletion(true, fs, Some(NotFound(f)))
    ensures !dryRun && Dirname(f) in fs && IsDir(fs, f) ==> r == Deletion(true, fs, Some(IsADirectory(f)))
    ensures IsFile(fs, f) && r.error.Some? ==> r.error.value == NotFound(Dirname(f))
    ensures KindsKept(fs, r.fs)
    ensures forall q :: q in fs && q !in r.fs ==> q == f
  {
    var parent := Dirname(f);
    if parent !in fs then Deletion(false, fs, Some(NotFound(parent)))
    else
      var atime := fs[parent].atime;
      var mtime := fs[parent].mtime;
      if dryRun then Deletion(true, fs, None)
      else
        match Unlink(fs, f, now)
        case Err(e) => Deletion(true, fs, Some(e))
        case Ok(fs1) =>
          match SetTimes(fs1, parent, atime, mtime)
          case Err(e) => Deletion(true, fs1, Some(e))
          case Ok(fs2) => Deletion(true, fs2, None)
  }

  /** A real deletion that completes removes the file and nothing else:
      in particular the parent keeps its atime and mtime, whatever the
      clock said at the unlink. */
  lemma DeleteRestoresParent(fs: FileSystem, f: Path, now: int)
    requires DeleteFile(fs, f, false, now).error.None?
    ensures var fs' := DeleteFile(fs, f, false, now).fs;
      && f in fs && f !in fs'
      && Dirname(f) in fs'
      && fs'[Dirname(f)].atime == fs[Dirname(f)].atime
      && fs'[Dirname(f)].mtime == fs[Dirname(f)].mtime
      && fs' == fs - {f}
  {
  }

  /** The call completes whenever the file is a regular file whose parent
      is a directory present in the map. */
  lemma DeleteSucceeds(fs: FileSystem, f: Path, dryRun: bool, now: int)
    requires IsFile(fs, f) && IsDir(fs, Dirname(f))
    ensures DeleteFile(fs, f, dryRun, now).error.None?
    ensures DeleteFile(fs, f, dryRun, now).reported
    ensures DeleteFile(fs, f, dryRun, now).fs == if dryRun then fs else fs - {f}
  {
  }

  /** The restore must come after the unlink: written before it, the
      unlink would leave the parent stamped with the clock. */
  lemma RestoreMustFollowUnlink(fs: FileSystem, f: Path, now: int)
    requires IsFile(fs, f) && IsDir(fs, Dirname(f)) && now != fs[Dirname(f)].mtime
    ensures var parent := Dirname(f);
      var early := SetTimes(fs, parent, fs[parent].atime, fs[parent].mtime).value;
      Unlink(early, f, now).value[parent].mtime != fs[parent].mtime
  {
  }

  /** A file named without a directory part has the empty string as its
      dirname, which names no entry: the call raises before printing or
      deleting anything, even though the file itself exists. */
  lemma BareNameRaises(fs: FileSystem, f: Path, dryRun: bool, now: int)
    requires NoSep(f) && "" !in fs
    ensures DeleteFile(fs, f, dryRun, now) == Deletion(false, fs, Some(NotFound("")))
  {
  }
}

=== FILE: filesystem.dfy ===
/** The abstract filesystem the tool works on: a map from path to entry,
    and the host calls it makes (`os.path.isfile`, `os.path.isdir`,
    `os.utime`, `os.unlink`) as reads and updates of that map. */
module FileSystem {
  import opened Paths

  /** What `os.path.isfile` / `os.path.isdir` can tell apart; `Special`
      stands for anything that is neither (a FIFO, a socket, a device). */
  datatype Kind = RegularFile | Directory | Special

  /** An entry's kind and its (atime, mtime) pair.  Timestamps are
      integers: only their order and equality matter to the tool. */
  datatype Entry = Entry(kind: Kind, atime: int, mtime: int)

  /** Every object is named by one canonical path spelling; the parent of
      an entry is the entry named by its `Dirname`. */
  type FileSystem = map<Path, Entry>

  /** The OS errors a call can raise in this model. */
  datatype Error =
    | NotFound(path: Path)       // FileNotFoundError
    | NotADirectory(path: Path)  // NotADirectoryError
    | IsADirectory(path: Path)   // IsADirectoryError

  datatype Result<T> = Ok(value: T) | Err(error: Error)

  datatype Option<T> = None | Some(value: T)

  /** `os.path.isfile` */
  predicate IsFile(fs: FileSystem, p: Path)
  {
    p in fs && fs[p].kind == RegularFile
  }

  /** `os.path.isdir` */
  predicate IsDir(fs: FileSystem, p: Path)
  {
    p in fs && fs[p].kind == Directory
  }

  /** Whatever has a parent in the map has a directory as parent, as on a
      real filesystem. */
  predicate WellFormed(fs: FileSystem)
  {
    forall p :: p in fs && Dirname(p) in fs ==> fs[Dirname(p)].kind == Directory
  }

  /** No entry appears and no entry changes kind. */
  predicate KindsKept(fs: FileSystem, fs': FileSystem)
  {
    fs'.Keys <= fs.Keys && forall q :: q in fs' ==> fs'[q].kind == fs[q].kind
  }

  /** `os.utime(p, times=(atime, mtime))`: sets both timestamps of `p`
      and touches nothing else. */
  function SetTimes(fs: FileSystem, p: Path, atime: int, mtime: int): (r: Result<FileSystem>)
    ensures p !in fs <==> r == Err(NotFound(p))
    ensures r.Ok? ==> r.value.Keys == fs.Keys
    ensures r.Ok? ==> r.value[p].kind == fs[p].kind
    ensures r.Ok? ==> r.value[p].atime == atime && r.value[p].mtime == mtime
    ensures r.Ok? ==> forall q :: q in fs && q != p ==> r.value[q] == fs[q]
  {
    if p !in fs then Err(NotFound(p))
    else Ok(fs[p := Entry(fs[p].kind, atime, mtime)])
  }

  /** `os.unlink(p)`: removes a non-directory entry.  As the host does,
      the directory holding it gets its mtime stamped with the current
      time `now`; its atime is left alone. */
  function Unlink(fs: FileSystem, p: Path, now: int): (r: Result<FileSystem>)
    ensures p !in fs ==> r == Err(NotFound(p))
    ensures p in fs && fs[p].kind == Directory ==> r == Err(IsADirectory(p))
    ensures p in fs && fs[p].kind != Directory ==> r.Ok?
    ensures r.Ok? ==> r.value.Keys == fs.Keys - {p}
    ensures r.Ok? && Dirname(p) in r.value ==>
              r.value[Dirname(p)] == fs[Dirname(p)].(mtime := now)
    ensures r.Ok? ==> forall q :: q in r.value && q != Dirname(p) ==> r.value[q] == fs[q]
  {
    if p !in fs then Err(NotFound(p))
    else if fs[p].kind == Directory then Err(IsADirectory(p))
    else
      var rest := fs - {p};
      var parent := Dirname(p);
      if parent in rest then Ok(rest[parent := rest[parent].(mtime := now)])
      else Ok(rest)
  }
}

=== FILE: handlers.dfy ===
/** `datefix_handler` and `delete_handler`: run one operation over the
    sorted argument paths, skip paths of the wrong kind, count the
    changes.  The log holds the path of every report line, in order. */
module Handlers {
  import opened Paths
  import opened Ordering
  import opened FileSystem
  import opened DateFix
  import opened Delete

  /** The paths of `ps`, in order and with repetitions, whose fix reports a
      change against `fs`. */
  function Stale(fs: FileSystem, ps: seq<Path>): (stale: seq<Path>)
  {
    if |ps| == 0 then []
    else Stale(fs, ps[..|ps| - 1]) + (if NeedsFix(fs, ps[|ps| - 1]) then [ps[|ps| - 1]] else [])
  }

  /** The paths of `ps`, in order and with repetitions, that name regular
      files of `fs`. */
  function Regular(fs: FileSystem, ps: seq<Path>): (files: seq<Path>)
  {
    if |ps| == 0 then []
    else Regular(fs, ps[..|ps| - 1]) + (if IsFile(fs, ps[|ps| - 1]) then [ps[|ps| - 1]] else [])
  }

  /** Every regular file among the arguments has its parent in the map. */
  predicate ParentsPresent(fs: FileSystem, files: seq<Path>)
  {
    forall f :: f in files && IsFile(fs, f) ==> Dirname(f) in fs
  }

  /** Appending the next element of a sorted list to a log drawn from the
      elements before it keeps the log sorted. */
  lemma AppendNext(log: seq<Path>, order: seq<Path>, i: nat)
    requires Sorted(order) && i < |order|
    requires Sorted(log) && forall q :: q in log ==> q in order[..i]
    ensures Sorted(log + [order[i]])
    ensures order[i] !in log ==> (StrictlySorted(log) ==> StrictlySorted(log + [order[i]]))
  {
    forall q | q in log
      ensures Below(q, order[i])
    {
      var j :| 0 <= j < i && order[..i][j] == q;
      assert order[j] == q;
    }
  }

  /** A log without repetitions has as many entries as distinct paths. */
  lemma {:induction false} DistinctCount(log: seq<Path>)
    requires StrictlySorted(log)
    ensures |set q | q in log| == |log|
    decreases |log|
  {
    if |log| > 0 {
      var init := log[..|log| - 1];
      var last := log[|log| - 1];
      assert StrictlySorted(init);
      DistinctCount(init);
      assert (set q | q in log) == (set q | q in init) + {last};
      assert last !in init;
    }
  }

  /** `log` lists, once each and in ascending order, exactly the paths
      of `ps` that `keep` accepts. */
  ghost predicate LogsKept(keep: Path -> bool, ps: seq<Path>, log: seq<Path>)
  {
    && StrictlySorted(log)
    && (forall q :: q in log <==> q in ps && keep(q))
  }

  /** A path that is already logged, or not accepted, leaves the log as it
      is. */
  lemma LogsKeptSkip(keep: Path -> bool, order: seq<Path>, i: nat, log: seq<Path>)
    requires i < |order| && LogsKept(keep, order[..i], log)
    requires order[i] in log || !keep(order[i])
    ensures LogsKept(keep, order[..i + 1], log)
  {
  }

  /** An accepted path met for the first time joins the log. */
  lemma LogsKeptAdd(keep: Path -> bool, order: seq<Path>, i: nat, log: seq<Path>)
    requires Sorted(order) && i < |order| && (forall q :: q in log ==> q in order[..i])
    requires LogsKept(keep, order[..i], log)
    requires order[i] !in log && keep(order[i])
    ensures LogsKept(keep, order[..i + 1], log + [order[i]])
  {
    assert order[..i + 1] == order[..i] + [order[i]];
    AppendNext(log, order, i);
  }

  /** A log that keeps the accepted paths of the sorted arguments lists
      each accepted argument exactly once. */
  lemma LogsKeptAll(keep: Path -> bool, ps: seq<Path>, log: seq<Path>)
    requires LogsKept(keep, Sort(ps), log)
    ensures StrictlySorted(log)
    ensures forall q :: q in log <==> q in ps && keep(q)
    ensures |log| == |set q | q in ps && keep(q)|
  {
    SortSameElements(ps);
    assert (set q | q in log) == (set q | q in ps && keep(q));
    DistinctCount(log);
  }

  /** `fs'` is `fs` with every directory of `log` given the mtime `target`
      names for it, and nothing else changed. */
  ghost predicate Redated(fs: FileSystem, fs': FileSystem, log: seq<Path>, target: Path -> int)
  {
    && fs'.Keys == fs.Keys
    && (forall q :: q in fs ==>
          fs'[q] == if q in log then fs[q].(mtime := target(q)) else fs[q])
  }

  lemma RedatedAdd(fs: FileSystem, fs': FileSystem, log: seq<Path>, target: Path -> int, p: Path)
    requires Redated(fs, fs', log, target) && p in fs && p !in log
    ensures Redated(fs, fs'[p := fs[p].(mtime := target(p))], log + [p], target)
  {
  }

  /** The body of `datefix_handler`'s loop for one path: fix it if it is a
      directory. */
  function Visit(fs: FileSystem, p: Path, dryRun: bool): (v: Fixed)
  {
    if IsDir(fs, p) then Fix(fs, p, dryRun).value else Fixed(false, fs)
  }

  lemma DatefixStep(fs: FileSystem, order: seq<Path>, i: nat, dryRun: bool, fs': FileSystem, log: seq<Path>)
    requires Sorted(order) && i < |order|
    requires Sorted(log) && (forall q :: q in log ==> q in order[..i]) && SameFiles(fs, fs')
    requires dryRun ==> fs' == fs && log == Stale(fs, order[..i])
    ensures var v := Visit(fs', order[i], dryRun);
      var log' := if v.changed then log + [order[i]] else log;
      && Sorted(log') && (forall q :: q in log' ==> q in order[..i + 1]) && SameFiles(fs, v.fs)
      && (dryRun ==> v.fs == fs && log' == Stale(fs, order[..i + 1]))
  {
    var p := order[i];
    assert order[..i + 1] == order[..i] + [p];
    assert order[..i + 1][..i] == order[..i];
    SameFilesSameTarget(fs, fs', p);
    if IsDir(fs', p) {
      FixKeepsFiles(fs', p, dryRun);
      if Fix(fs', p, dryRun).value.changed {
        AppendNext(log, order, i);
      }
    }
  }

  /** One step of a real datefix run.  `stale` and `target` stand for
      `NeedsFix` and `OldestMTime` against the initial filesystem; a
      directory reached again finds itself already fixed. */
  lemma DatefixRealStep(fs: FileSystem, order: seq<Path>, i: nat, fs': FileSystem, log: seq<Path>,
                        stale: Path -> bool, target: Path -> int)
    requires Sorted(order) && i < |order|
    requires SameFiles(fs, fs') && (forall q :: q in log ==> q in order[..i])
    requires LogsKept(stale, order[..i], log) && Redated(fs, fs', log, target)
    requires stale(order[i]) == NeedsFix(fs, order[i])
    requires NeedsFix(fs, order[i]) ==> target(order[i]) == OldestMTime(fs, order[i])
    ensures var v := Visit(fs', order[i], false);
      var log' := if v.changed then log + [order[i]] else log;
      LogsKept(stale, order[..i + 1], log') && Redated(fs, v.fs, log', target)
  {
    var p := order[i];
    var v := Visit(fs', p, false);
    SameFilesSameTarget(fs, fs', p);
    if IsDir(fs', p) {
      assert v.changed <==> p !in log && NeedsFix(fs, p);
    }
    if v.changed {
      FixSetsOldest(fs', p);
      assert v.fs == fs'[p := fs[p].(mtime := target(p))];
      LogsKeptAdd(stale, order, i, log);
      RedatedAdd(fs, fs', log, target, p);
    } else {
      LogsKeptSkip(stale, order, i, log);
    }
  }

  /** The loop invariant of `datefix_handler` after the first `i` sorted
      arguments; `stale` and `target` stand for `NeedsFix` and
      `OldestMTime` against the initial filesystem. */
  ghost predicate DatefixInv(fs: FileSystem, order: seq<Path>, dryRun: bool,
                             stale: Path -> bool, target: Path -> int,
                             i: nat, count: nat, fs': FileSystem, log: seq<Path>)
  {
    && i <= |order|
    && count == |log|
    && Sorted(log) && (forall q :: q in log ==> q in order[..i])
    && SameFiles(fs, fs')
    && (dryRun ==> fs' == fs && log == Stale(fs, order[..i]))
    && (!dryRun ==> LogsKept(stale, order[..i], log) && Redated(fs, fs', log, target))
  }

  lemma DatefixInvStep(fs: FileSystem, order: seq<Path>, dryRun: bool,
                       stale: Path -> bool, target: Path -> int,
                       i: nat, count: nat, fs': FileSystem, log: seq<Path>)
    requires Sorted(order) && i < |order|
    requires stale(order[i]) == NeedsFix(fs, order[i])
    requires NeedsFix(fs, order[i]) ==> target(order[i]) == OldestMTime(fs, order[i])
    requires DatefixInv(fs, order, dryRun, stale, target, i, count, fs', log)
    ensures var v := Visit(fs', order[i], dryRun);
      DatefixInv(fs, order, dryRun, stale, target, i + 1,
                 if v.changed then count + 1 else count, v.fs,
                 if v.changed then log + [order[i]] else log)
  {
    DatefixStep(fs, order, i, dryRun, fs', log);
    if !dryRun {
      DatefixRealStep(fs, order, i, fs', log, stale, target);
    }
  }

  /** What a finished datefix run amounts to, stated against the initial
      filesystem. */
  lemma DatefixInvDone(fs: FileSystem, directories: seq<Path>, dryRun: bool,
                       stale: Path -> bool, target: Path -> int,
                       count: nat, fs': FileSystem, log: seq<Path>)
    requires forall q :: stale(q) == NeedsFix(fs, q)
    requires forall q :: NeedsFix(fs, q) ==> target(q) == OldestMTime(fs, q)
    requires DatefixInv(fs, Sort(directories), dryRun, stale, target, |Sort(directories)|, count, fs', log)
    ensures count == |log|
    ensures Sorted(log)
    ensures dryRun ==> fs' == fs && log == Stale(fs, Sort(directories))
    ensures !dryRun ==> count == |set p | p in directories && NeedsFix(fs, p)|
    ensures !dryRun ==> StrictlySorted(log)
    ensures !dryRun ==> forall p :: p in log <==> p in directories && NeedsFix(fs, p)
    ensures !dryRun ==> fs'.Keys == fs.Keys
    ensures !dryRun ==> forall p :: p in fs ==>
              fs'[p] == if p in directories && NeedsFix(fs, p)
                        then fs[p].(mtime := OldestMTime(fs, p)) else fs[p]
  {
    var order := Sort(directories);
    assert order[..|order|] == order;
    if !dryRun {
      LogsKeptAll(stale, directories, log);
      assert (set q | q in directories && stale(q)) == (set p | p in directories && NeedsFix(fs, p));
    }
  }

  /** `datefix_handler`: fix every argument that is a directory, in
      ascending path order, and count the fixes that reported a change.

      A dry run writes nothing and reports each stale directory once per
      occurrence among the arguments.  A real run reports each stale
      directory once, because its second occurrence finds it fixed, and
      leaves every one of them dated like its oldest regular file. */
  method DatefixHandler(fs: FileSystem, directories: seq<Path>, dryRun: bool)
    returns (count: nat, fs': FileSystem, log: seq<Path>)
    ensures count == |log|
    ensures Sorted(log)
    ensures dryRun ==> fs' == fs && log == Stale(fs, Sort(directories))
    ensures !dryRun ==> count == |set p | p in directories && NeedsFix(fs, p)|
    ensures !dryRun ==> StrictlySorted(log)
    ensures !dryRun ==> forall p :: p in log <==> p in directories && NeedsFix(fs, p)
    ensures !dryRun ==> fs'.Keys == fs.Keys
    ensures !dryRun ==> forall p :: p in fs ==>
              fs'[p] == if p in directories && NeedsFix(fs, p)
                        then fs[p].(mtime := OldestMTime(fs, p)) else fs[p]
  {
    ghost var stale: Path -> bool := q => NeedsFix(fs, q);
    ghost var target: Path -> int := q => if NeedsFix(fs, q) then OldestMTime(fs, q) else 0;
    count, fs', log := DatefixLoop(fs, Sort(directories), dryRun, stale, target);
    DatefixInvDone(fs, directories, dryRun, stale, target, count, fs', log);
  }

  /** The loop of `datefix_handler` over the sorted arguments `order`. */
  method DatefixLoop(fs: FileSystem, order: seq<Path>, dryRun: bool,
                     ghost stale: Path -> bool, ghost target: Path -> int)
    returns (count: nat, fs': FileSystem, log: seq<Path>)
    requires Sorted(order)
    requires forall q :: stale(q) == NeedsFix(fs, q)
    requires forall q :: NeedsFix(fs, q) ==> target(q) == OldestMTime(fs, q)
    ensures DatefixInv(fs, order, dryRun, stale, target, |order|, count, fs', log)
  {
    count, fs', log := 0, fs, [];
    var i := 0;
    while i < |order|
      invariant DatefixInv(fs, order, dryRun, stale, target, i, count, fs', log)
    {
      var p := order[i];
      DatefixInvStep(fs, order, dryRun, stale, target, i, count, fs', log);
      var v := Visit(fs', p, dryRun);
      count, fs', log := if v.changed then count + 1 else count, v.fs, if v.changed then log + [p] else log;
      i := i + 1;
    }
  }

  /** What a delete run that has raised nothing guarantees after the first
      `i` sorted arguments, in either mode: only logged paths have gone,
      the log is a sorted selection of those arguments, and every regular
      file among them had its parent present. */
  ghost predicate DeleteProgress(fs: FileSystem, order: seq<Path>, i: nat, fs': FileSystem, log: seq<Path>)
    requires i <= |order|
  {
    && (forall q :: q in fs && q !in fs' ==> q in log)
    && Sorted(log)
    && (forall q :: q in log ==> q in order[..i])
    && (forall q :: q in order[..i] && IsFile(fs, q) ==> Dirname(q) in fs)
  }

  lemma DeleteStep(fs: FileSystem, order: seq<Path>, i: nat, dryRun: bool, now: int, fs': FileSystem, log: seq<Path>)
    requires Sorted(order) && i < |order|
    requires KindsKept(fs, fs') && DeleteProgress(fs, order, i, fs', log)
    ensures !IsFile(fs', order[i]) ==> DeleteProgress(fs, order, i + 1, fs', log)
    ensures IsFile(fs', order[i]) ==>
              var d := DeleteFile(fs', order[i], dryRun, now);
              && KindsKept(fs, d.fs)
              && (d.error.Some? ==> IsFile(fs, order[i]) && d.error.value == NotFound(Dirname(order[i])))
              && (d.error.None? ==> d.reported && DeleteProgress(fs, order, i + 1, d.fs, log + [order[i]]))
  {
    var f := order[i];
    assert order[..i + 1] == order[..i] + [f];
    if IsFile(fs', f) {
      var d := DeleteFile(fs', f, dryRun, now);
      if d.error.None? {
        AppendNext(log, order, i);
      }
    }
  }

  lemma DeleteDryStep(fs: FileSystem, files: seq<Path>, order: seq<Path>, i: nat, now: int,
                      fs': FileSystem, log: seq<Path>, dryRun: bool)
    requires i < |order| && (forall q :: q in order ==> q in files)
    requires dryRun ==> fs' == fs && log == Regular(fs, order[..i])
    ensures dryRun && !IsFile(fs', order[i]) ==> log == Regular(fs, order[..i + 1])
    ensures dryRun && IsFile(fs', order[i]) ==>
              var d := DeleteFile(fs', order[i], dryRun, now);
              && (d.error.None? ==> log + [order[i]] == Regular(fs, order[..i + 1]))
              && (d.error.Some? ==> !d.reported && Dirname(order[i]) !in fs)
  {
    assert order[..i + 1][..i] == order[..i];
  }

  /** One step of a real delete run on a well-formed filesystem, where
      `regular` stands for `IsFile` against the initial filesystem: the
      filesystem is always the initial one minus the logged files. */
  lemma DeleteRealStep(fs: FileSystem, files: seq<Path>, order: seq<Path>, i: nat, now: int,
                       fs': FileSystem, log: seq<Path>, regular: Path -> bool, dryRun: bool)
    requires Sorted(order) && i < |order| && (forall q :: q in order ==> q in files)
    requires (forall q :: q in log ==> q in order[..i]) && (forall q :: regular(q) == IsFile(fs, q))
    requires !dryRun && WellFormed(fs) ==> fs' == fs - (set q | q in log) && LogsKept(regular, order[..i], log)
    ensures !dryRun && WellFormed(fs) && !IsFile(fs', order[i]) ==> LogsKept(regular, order[..i + 1], log)
    ensures !dryRun && WellFormed(fs) && IsFile(fs', order[i]) ==>
              var d := DeleteFile(fs', order[i], dryRun, now);
              && (d.error.None? ==>
                    && d.fs == fs - (set q | q in log + [order[i]])
                    && LogsKept(regular, order[..i + 1], log + [order[i]]))
              && (d.error.Some? ==> !d.reported && d.fs == fs' && Dirname(order[i]) !in fs)
  {
    if !dryRun && WellFormed(fs) {
      var f := order[i];
      if IsFile(fs', f) {
        assert f !in log;
        var parent := Dirname(f);
        if parent in fs' {
          DeleteSucceeds(fs', f, false, now);
          assert (set q | q in log + [f]) == (set q | q in log) + {f};
          LogsKeptAdd(regular, order, i, log);
        } else {
          assert parent !in fs;
        }
      } else {
        LogsKeptSkip(regular, order, i, log);
      }
    }
  }

  /** The run raised at the `i`-th sorted argument: a regular file whose
      parent is missing. */
  predicate RaisedAt(fs: FileSystem, order: seq<Path>, i: nat, e: Error)
  {
    && i < |order| && IsFile(fs, order[i])
    && Dirname(order[i]) !in fs && e == NotFound(Dirname(order[i]))
  }

  /** The loop invariant of `delete_handler` after the first `i` sorted
      arguments.  A raising call stops the run with `i` at the file that
      raised; in a dry run, and in a real run on a well-formed filesystem,
      it has changed nothing, so what held before it still holds. */
  ghost predicate DeleteInv(fs: FileSystem, files: seq<Path>, order: seq<Path>, dryRun: bool,
                            regular: Path -> bool, i: nat, count: nat, fs': FileSystem,
                            log: seq<Path>, error: Option<Error>)
  {
    && i <= |order|
    && KindsKept(fs, fs')
    && (error.Some? ==> exists f :: f in files && IsFile(fs, f) && error.value == NotFound(Dirname(f)))
    && (dryRun ==> fs' == fs && log == Regular(fs, order[..i]))
    && (error.None? || dryRun || WellFormed(fs) ==> count == |log| && DeleteProgress(fs, order, i, fs', log))
    && (!dryRun && WellFormed(fs) ==> fs' == fs - (set q | q in log) && LogsKept(regular, order[..i], log))
    && ((dryRun || WellFormed(fs)) && error.Some? ==> RaisedAt(fs, order, i, error.value))
  }

  lemma DeleteInvStep(fs: FileSystem, files: seq<Path>, order: seq<Path>, dryRun: bool, now: int,
                      regular: Path -> bool, i: nat, count: nat, fs': FileSystem, log: seq<Path>)
    requires Sorted(order) && i < |order| && (forall q :: q in order ==> q in files)
    requires forall q :: regular(q) == IsFile(fs, q)
    requires DeleteInv(fs, files, order, dryRun, regular, i, count, fs', log, None)
    ensures !IsFile(fs', order[i]) ==>
              DeleteInv(fs, files, order, dryRun, regular, i + 1, count, fs', log, None)
    ensures IsFile(fs', order[i]) ==>
              var d := DeleteFile(fs', order[i], dryRun, now);
              DeleteInv(fs, files, order, dryRun, regular,
                        if d.error.Some? then i else i + 1,
                        if d.error.Some? then count else count + 1,
                        d.fs, if d.reported then log + [order[i]] else log, d.error)
  {
    DeleteStep(fs, order, i, dryRun, now, fs', log);
    DeleteDryStep(fs, files, order, i, now, fs', log, dryRun);
    DeleteRealStep(fs, files, order, i, now, fs', log, regular, dryRun);
  }

  /** What a delete run that stopped, at the end of the list or at an
      error, amounts to. */
  lemma DeleteInvDone(fs: FileSystem, files: seq<Path>, dryRun: bool, regular: Path -> bool,
                      i: nat, count: nat, fs': FileSystem, log: seq<Path>, error: Option<Error>)
    requires DeleteInv(fs, files, Sort(files), dryRun, regular, i, count, fs', log, error)
    requires error.None? ==> i == |Sort(files)|
    ensures error.None? || dryRun || WellFormed(fs) ==> count == |log| && Sorted(log)
    ensures error.Some? ==> exists f :: f in files && IsFile(fs, f) && error.value == NotFound(Dirname(f))
    ensures KindsKept(fs, fs')
    ensures dryRun ==> fs' == fs
    ensures dryRun || WellFormed(fs) ==> (error.None? <==> ParentsPresent(fs, files))
    ensures dryRun && error.None? ==> log == Regular(fs, Sort(files))
    ensures !dryRun && WellFormed(fs) ==> fs' == fs - (set q | q in log)
  {
    var order := Sort(files);
    SortSameElements(files);
    if error.None? {
      assert order[..i] == order;
    } else if dryRun || WellFormed(fs) {
      assert order[i] in files;
    }
  }

  /** What a run that raised amounts to, in a dry run or a real run on a
      well-formed filesystem: the error names the missing parent of the
      `k`-th sorted argument, every regular file before it had its parent,
      and exactly the regular files before it were reported (and, in a
      real run, deleted).  No later argument was touched. */
  lemma DeleteRaisedDone(fs: FileSystem, files: seq<Path>, dryRun: bool, regular: Path -> bool,
                         i: nat, count: nat, fs': FileSystem, log: seq<Path>, error: Option<Error>)
    requires forall q :: regular(q) == IsFile(fs, q)
    requires DeleteInv(fs, files, Sort(files), dryRun, regular, i, count, fs', log, error)
    requires error.Some? && (dryRun || WellFormed(fs))
    ensures exists k :: 0 <= k < |Sort(files)| && RaisedAt(fs, Sort(files), k, error.value)
              && ParentsPresent(fs, Sort(files)[..k])
              && (dryRun ==> log == Regular(fs, Sort(files)[..k]))
              && (!dryRun ==> forall q :: q in log <==> q in Sort(files)[..k] && IsFile(fs, q))
  {
  }

  /** What a real delete run on a well-formed filesystem that raised
      nothing amounts to. */
  lemma DeleteRealDone(fs: FileSystem, files: seq<Path>, regular: Path -> bool,
                       count: nat, fs': FileSystem, log: seq<Path>)
    requires forall q :: regular(q) == IsFile(fs, q)
    requires WellFormed(fs)
    requires DeleteInv(fs, files, Sort(files), false, regular, |Sort(files)|, count, fs', log, None)
    ensures StrictlySorted(log)
    ensures forall q :: q in log <==> q in files && IsFile(fs, q)
    ensures count == |set q | q in files && IsFile(fs, q)|
  {
    var order := Sort(files);
    assert order[..|order|] == order;
    LogsKeptAll(regular, files, log);
    assert (set q | q in files && regular(q)) == (set q | q in files && IsFile(fs, q));
  }

  /** `delete_handler`: delete every argument that is a regular file, in
      ascending path order, and count the deletions.  An error raised by
      a deletion ends the run (dirtool.py catches no exception); `error` holds
      it.  `now` is the host clock at the unlinks.

      A dry run deletes nothing.  On a well-formed filesystem a real run
      removes exactly the files it reports, each once; in both modes the
      run completes exactly when every regular file among the arguments
      has its parent present. */
  method DeleteHandler(fs: FileSystem, files: seq<Path>, dryRun: bool, now: int)
    returns (count: nat, fs': FileSystem, log: seq<Path>, error: Option<Error>)
    ensures error.None? || dryRun || WellFormed(fs) ==> count == |log| && Sorted(log)
    ensures error.Some? ==> exists f :: f in files && IsFile(fs, f) && error.value == NotFound(Dirname(f))
    ensures KindsKept(fs, fs')
    ensures dryRun ==> fs' == fs
    ensures dryRun || WellFormed(fs) ==> (error.None? <==> ParentsPresent(fs, files))
    ensures dryRun && error.None? ==> log == Regular(fs, Sort(files))
    ensures !dryRun && WellFormed(fs) ==> fs' == fs - (set q | q in log)
    ensures error.Some? && (dryRun || WellFormed(fs)) ==>
              exists k :: 0 <= k < |Sort(files)| && RaisedAt(fs, Sort(files), k, error.value)
                && ParentsPresent(fs, Sort(files)[..k])
                && (dryRun ==> log == Regular(fs, Sort(files)[..k]))
                && (!dryRun ==> forall q :: q in log <==> q in Sort(files)[..k] && IsFile(fs, q))
    ensures !dryRun && WellFormed(fs) && error.None? ==>
              && StrictlySorted(log)
              && (forall q :: q in log <==> q in files && IsFile(fs, q))
              && count == |set q | q in files && IsFile(fs, q)|
  {
    ghost var regular: Path -> bool := q => IsFile(fs, q);
    SortSameElements(files);
    var i;
    i, count, fs', log, error := DeleteLoop(fs, files, Sort(files), dryRun, now, regular);
    DeleteInvDone(fs, files, dryRun, regular, i, count, fs', log, error);
    if !dryRun && WellFormed(fs) && error.None? {
      DeleteRealDone(fs, files, regular, count, fs', log);
    }
    if error.Some? && (dryRun || WellFormed(fs)) {
      DeleteRaisedDone(fs, files, dryRun, regular, i, count, fs', log, error);
    }
  }

  /** The loop of `delete_handler` over the sorted arguments `order`; it
      stops at the first error, leaving `i` at the file that raised it. */
  method DeleteLoop(fs: FileSystem, files: seq<Path>, order: seq<Path>, dryRun: bool, now: int,
                    ghost regular: Path -> bool)
    returns (i: nat, count: nat, fs': FileSystem, log: seq<Path>, error: Option<Error>)
    requires Sorted(order) && forall q :: q in order ==> q in files
    requires forall q :: regular(q) == IsFile(fs, q)
    ensures DeleteInv(fs, files, order, dryRun, regular, i, count, fs', log, error)
    ensures error.None? ==> i == |order|
  {
    count, fs', log, error := 0, fs, [], None;
    i := 0;
    assert fs - (set q: Path | q in log) == fs;
    while i < |order| && error.None?
      invariant DeleteInv(fs, files, order, dryRun, regular, i, count, fs', log, error)
      decreases |order| - i, if error.None? then 1 else 0
    {
      var f := order[i];
      DeleteInvStep(fs, files, order, dryRun, now, regular, i, count, fs', log);
      if IsFile(fs', f) {
        var d := DeleteFile(fs', f, dryRun, now);
        i, count, fs', log, error :=
          if d.error.Some? then i else i + 1,
          if d.error.Some? then count else count + 1,
          d.fs,
          if d.reported then log + [f] else log,
          d.error;
      } else {
        i := i + 1;
      }
    }
  }
}

=== FILE: ordering.dfy ===
/** Python's ordering of `str` values (lexicographic by code point) and
    the `sorted` call the batch handlers make on their argument lists. */
module Ordering {

  /** `a <= b` on Python strings. */
  predicate Below(a: string, b: string)
    decreases |a|
  {
    |a| == 0 || (|b| > 0 && (a[0] < b[0] || (a[0] == b[0] && Below(a[1..], b[1..]))))
  }

  lemma {:induction false} BelowReflexive(a: string)
    ensures Below(a, a)
    decreases |a|
  {
    if |a| > 0 {
      BelowReflexive(a[1..]);
    }
  }

  lemma {:induction false} BelowTotal(a: string, b: string)
    ensures Below(a, b) || Below(b, a)
    decreases |a|
  {
    if |a| > 0 && |b| > 0 && a[0] == b[0] {
      BelowTotal(a[1..], b[1..]);
    }
  }

  lemma {:induction false} BelowAntisymmetric(a: string, b: string)
    requires Below(a, b) && Below(b, a)
    ensures a == b
    decreases |a|
  {
    if |a| > 0 {
      BelowAntisymmetric(a[1..], b[1..]);
      assert a == [a[0]] + a[1..];
      assert b == [b[0]] + b[1..];
    }
  }

  lemma {:induction false} BelowTransitive(a: string, b: string, c: string)
    requires Below(a, b) && Below(b, c)
    ensures Below(a, c)
    decreases |a|
  {
    if |a| > 0 && a[0] == b[0] && b[0] == c[0] {
      BelowTransitive(a[1..], b[1..], c[1..]);
    }
  }

  /** Non-descending order, as `sorted` produces. */
  predicate Sorted(s: seq<string>)
  {
    forall i, j :: 0 <= i < j < |s| ==> Below(s[i], s[j])
  }

  /** Ascending order without repetitions. */
  predicate StrictlySorted(s: seq<string>)
  {
    forall i, j :: 0 <= i < j < |s| ==> Below(s[i], s[j]) && s[i] != s[j]
  }

  function Insert(x: string, s: seq<string>): (r: seq<string>)
    requires Sorted(s)
    ensures Sorted(r)
    ensures multiset(r) == multiset(s) + multiset{x}
  {
    if |s| == 0 then [x]
    else if Below(x, s[0]) then
      assert forall j :: 0 < j < |s| ==> Below(x, s[j]) by {
        forall j | 0 < j < |s| {
          BelowTransitive(x, s[0], s[j]);
        }
      }
      [x] + s
    else
      BelowTotal(x, s[0]);
      var t := Insert(x, s[1..]);
      assert s == [s[0]] + s[1..];
      InsertRestAbove(x, s, t);
      [s[0]] + t
  }

  /** Everything inserted behind the head of a sorted list stays above it. */
  lemma InsertRestAbove(x: string, s: seq<string>, t: seq<string>)
    requires Sorted(s) && |s| > 0 && Below(s[0], x)
    requires multiset(t) == multiset(s[1..]) + multiset{x}
    ensures forall k :: 0 <= k < |t| ==> Below(s[0], t[k])
  {
    forall k | 0 <= k < |t|
      ensures Below(s[0], t[k])
    {
      assert t[k] in multiset(t);
      if t[k] != x {
        assert t[k] in multiset(s[1..]);
        var j :| 0 <= j < |s[1..]| && s[1..][j] == t[k];
        assert s[j + 1] == t[k];
      }
    }
  }

  /** `sorted(xs)` on a list of strings (insertion sort; the result is the
      same for any correct sort, since equal strings are identical). */
  function Sort(s: seq<string>): (r: seq<string>)
    ensures Sorted(r)
    ensures multiset(r) == multiset(s)
  {
    if |s| == 0 then []
    else
      assert s == [s[0]] + s[1..];
      Insert(s[0], Sort(s[1..]))
  }

  /** Sorting keeps exactly the elements of its input. */
  lemma SortSameElements(s: seq<string>)
    ensures |Sort(s)| == |s|
    ensures forall x :: x in Sort(s) <==> x in s
  {
    var r := Sort(s);
    assert |r| == |multiset(r)| == |multiset(s)| == |s|;
    forall x
      ensures x in r <==> x in s
    {
      assert x in r <==> x in multiset(r);
      assert x in s <==> x in multiset(s);
    }
  }

  /** Dropping the head of a list drops one copy of it from the multiset. */
  lemma TailMultiset(a: seq<string>)
    requires |a| > 0
    ensures multiset(a[1..]) == multiset(a) - multiset{a[0]}
  {
    assert a == [a[0]] + a[1..];
  }

  /** Two sorted lists with the same elements start with the same one. */
  lemma SortedSameHead(a: seq<string>, b: seq<string>)
    requires Sorted(a) && Sorted(b) && multiset(a) == multiset(b) && |a| > 0
    ensures |b| > 0 && a[0] == b[0]
  {
    assert a[0] in multiset(b);
    var i :| 0 <= i < |b| && b[i] == a[0];
    assert b[0] in multiset(a);
    var j :| 0 <= j < |a| && a[j] == b[0];
    if i == 0 { BelowReflexive(b[0]); }
    if j == 0 { BelowReflexive(a[0]); }
    assert Below(b[0], a[0]) && Below(a[0], b[0]);
    BelowAntisymmetric(a[0], b[0]);
  }

  /** Any sorted list is determined by its multiset of elements: `sorted`
      yields one canonical order whatever order the caller used. */
  lemma {:induction false} SortedUnique(a: seq<string>, b: seq<string>)
    requires Sorted(a) && Sorted(b)
    requires multiset(a) == multiset(b)
    ensures a == b
    decreases |a|
  {
    if |a| > 0 {
      SortedSameHead(a, b);
      TailMultiset(a);
      TailMultiset(b);
      SortedUnique(a[1..], b[1..]);
      assert a == [a[0]] + a[1..];
      assert b == [b[0]] + b[1..];
    } else {
      assert |b| == |multiset(b)| == 0;
    }
  }

  /** Processing order does not depend on the caller's order. */
  lemma SortIgnoresInputOrder(s: seq<string>, t: seq<string>)
    requires multiset(s) == multiset(t)
    ensures Sort(s) == Sort(t)
  {
    SortedUnique(Sort(s), Sort(t));
  }
}

=== FILE: paths.dfy ===
/** POSIX path strings as the tool handles them: `os.path.dirname` and
    `os.path.join` with the separator '/'. */
module Paths {

  type Path = string

  const Sep: char := '/'

  predicate NoSep(s: string)
  {
    forall k :: 0 <= k < |s| ==> s[k] != Sep
  }

  predicate AllSeps(s: string)
  {
    forall k :: 0 <= k < |s| ==> s[k] == Sep
  }

  /** One past the index of the last separator in `p`, or 0 when there is
      none (Python's `p.rfind('/') + 1`). */
  function LastSepEnd(p: string): (i: nat)
    ensures i <= |p|
    ensures i > 0 ==> p[i - 1] == Sep
    ensures NoSep(p[i..])
  {
    if |p| == 0 then 0
    else if p[|p| - 1] == Sep then |p|
    else
      var i := LastSepEnd(p[..|p| - 1]);
      assert p[i..] == p[..|p| - 1][i..] + [p[|p| - 1]];
      i
  }

  /** `s.rstrip('/')`. */
  function TrimTrailingSeps(s: string): (r: string)
    ensures r <= s
    ensures |r| == 0 || r[|r| - 1] != Sep
    ensures AllSeps(s[|r|..])
  {
    if |s| == 0 || s[|s| - 1] != Sep then s
    else
      var r := TrimTrailingSeps(s[..|s| - 1]);
      assert s[|r|..] == s[..|s| - 1][|r|..] + [Sep];
      r
  }

  /** `posixpath.dirname`: everything up to the last separator, with the
      trailing separators removed unless the head consists only of them. */
  function Dirname(p: Path): (d: Path)
    ensures d <= p
  {
    var head := p[..LastSepEnd(p)];
    if |head| > 0 && !AllSeps(head) then TrimTrailingSeps(head) else head
  }

  /** `posixpath.join(d, name)` for a single component. */
  function Join(d: Path, name: string): (p: Path)
  {
    if |name| > 0 && name[0] == Sep then name
    else if |d| == 0 || d[|d| - 1] == Sep then d + name
    else d + [Sep] + name
  }

  /** Appending a separator-free tail does not move the last separator. */
  lemma {:induction false} LastSepEndAfter(a: string, b: string)
    requires |a| > 0 && a[|a| - 1] == Sep && NoSep(b)
    ensures LastSepEnd(a + b) == |a|
    decreases |b|
  {
    if |b| > 0 {
      var b' := b[..|b| - 1];
      assert (a + b)[..|a + b| - 1] == a + b';
      LastSepEndAfter(a, b');
    } else {
      assert a + b == a;
    }
  }

  /** The directory listing names an entry `name` of `d`; the path the
      tool builds for it with `os.path.join` has `d` as its dirname.  This
      is why the model finds a directory's children as the entries whose
      `Dirname` is that directory. */
  lemma {:induction false} JoinThenDirname(d: Path, name: string)
    requires |name| > 0 && NoSep(name)
    requires |d| > 0 && (d[|d| - 1] != Sep || AllSeps(d))
    ensures Dirname(Join(d, name)) == d
  {
    var p := Join(d, name);
    var i := LastSepEnd(p);
    if d[|d| - 1] == Sep {
      assert p == d + name;
      LastSepEndAfter(d, name);
      assert p[..i] == d;
    } else {
      assert p == (d + [Sep]) + name;
      LastSepEndAfter(d + [Sep], name);
      var head := p[..i];
      assert head == d + [Sep];
      assert head[|d| - 1] != Sep;
      assert head[..|head| - 1] == d;
    }
  }

  /** A name as a directory listing returns it: non-empty, no separator. */
  predicate IsName(name: string)
  {
    |name| > 0 && NoSep(name)
  }

  /** A path spelled the way a filesystem entry is named here: non-empty,
      no trailing separator and no doubled separator. */
  predicate Canonical(p: Path)
  {
    && |p| > 0 && p[|p| - 1] != Sep
    && forall k :: 0 <= k < |p| - 1 ==> !(p[k] == Sep && p[k + 1] == Sep)
  }

  /** `posixpath.basename`: everything after the last separator. */
  function Basename(p: Path): (name: string)
  {
    p[LastSepEnd(p)..]
  }

  /** The converse of `JoinThenDirname`: a canonical path with a directory
      part is the join of its dirname and its basename, and the basename
      is a plain name. */
  lemma DirnameThenJoin(p: Path)
    requires Canonical(p) && Dirname(p) != ""
    ensures IsName(Basename(p))
    ensures Join(Dirname(p), Basename(p)) == p
  {
    var i := LastSepEnd(p);
    var head := p[..i];
    var name := p[i..];
    assert i > 0;
    assert i < |p|;
    assert p == head + name;
    if !AllSeps(head) {
      var r := TrimTrailingSeps(head);
      assert |r| < |head|;
      assert !(p[|r|] == Sep && p[|r| + 1] == Sep) || |r| + 1 == i;
      assert head == r + [Sep];
    }
  }

  /** A bare file name has the empty string as its dirname. */
  lemma BareNameDirname(name: string)
    requires NoSep(name)
    ensures Dirname(name) == ""
  {
  }
}
